=== FILE: README.md ===
# Contact form and carousel logic of the lightsmith landing page, in Dafny

The page's `script.js` is mostly DOM plumbing. This project models the parts
of it that are decisions:

- **Field validation** (`validateField`, `getFieldLabel`, `isValidEmail`,
  `isValidPhone`, and the `blur` / `input` listeners that call them).
  `JsText` gives JavaScript's `\s` class and `String.prototype.trim`. `Email`
  and `Phone` restate the two regular expressions as predicates on strings,
  then prove what they accept. `Validation` picks the one message a field
  shows.
- **Form-record construction** (`FormRecord`). This is the object the
  submit handler builds from the FormData entries. It is a left fold over
  the ordered entries, followed by four derived properties. The timestamp
  is a parameter.
- **Submission** (`Submission`). This is a state machine over what the page
  shows. A submit sets the loading marker and sends one request. Each
  request settles through the success callback or the failure callback.
  The proof shows that both leave the visitor the same screen.
- **Carousel** (`Carousel`). This covers `showSlide`, `changeSlide` and
  `currentSlide` over the stored index and the slide and indicator lists.
  The proofs cover wrap-around, the "only the current slide is active"
  invariant, and the modular behaviour of repeated steps.

Strings are `seq<char>` holding Unicode scalar values. JavaScript strings
hold UTF-16 code units. The two agree for every character that either
regular expression names, because all of them are in the Basic
Multilingual Plane. A character outside that plane is two code units in
JavaScript and one `char` here. Either way it is a non-space, non-`@`,
non-digit run, so the two representations get the same verdicts.

## Model

| member | source | states |
|---|---|---|
| JsText.Trim | script.js:121 | `trim` gives the empty string exactly when the value is all whitespace, using JavaScript's `\s` set. Otherwise the result starts and ends with a non-space. |
| JsText.TrimIsSlice | script.js:121 | The trimmed value is a slice of the raw value, and everything cut away on either side is whitespace. |
| JsText.TrimOfPadded | script.js:121 | `trim` returns exactly the core of any split of the value into whitespace, a core, and whitespace, where the core is empty or has a non-space at each end. So the cut is unique. |
| JsText.TrimIgnoresPadding | script.js:121 | Whitespace added before or after a value does not change its trim. |
| JsText.TrimIdempotent | script.js:121 | Trimming twice gives the same result as trimming once. |
| Email.IsValidEmail | script.js:179-182 | `isValidEmail` accepts exactly the language of `^[^\s@]+@[^\s@]+\.[^\s@]+$`. Here that language is read as "some '@' position and some '.' position split the string into three non-empty `[^\s@]` runs". The check itself splits at the first '@', and `Email.FirstAtSplitMatchesRegex` proves the two readings agree. |
| Email.EmailShape | script.js:179-182 | `local + "@" + domain` is accepted exactly when all of these hold: `local` is non-empty; both parts are free of whitespace and '@'; `domain` has a '.' with a character on each side. |
| Email.EmailHasOneAt | script.js:179-182 | Every accepted address has exactly one '@'. Strings with no '@', or with two or more, are rejected. |
| Phone.StripSeparators | script.js:186 | After the `replace`, the result is no longer than the input and holds no whitespace, '-', '(' or ')'. |
| Phone.StripCount | script.js:186 | The `replace` deletes every separator. Every other character survives exactly as many times as it occurred. |
| Phone.StripConcat | script.js:186 | Stripping works character by character: stripping a concatenation gives the concatenation of the stripped parts, in order. |
| Phone.PhoneIgnoresSeparators | script.js:184-187 | Inserting a space, hyphen or parenthesis anywhere never changes the phone verdict. |
| Phone.PhoneAcceptsNumber | script.js:185-186 | Every string of 1 to 16 digits whose first digit is not '0' is accepted, with or without a leading '+'. |
| Phone.PhoneCharsAllowed | script.js:184-187 | An accepted value contains only digits, '+' and separators. Any other character, such as '.', means rejection. |
| Phone.IsValidPhone | script.js:184-187 | `isValidPhone` tests the pattern against the stripped value. Whatever the punctuation, an accepted value holds 1 to 16 ASCII digits. The lemmas below characterise it further. |
| Phone.PhoneDigitCount | script.js:185-186 | An accepted value holds between 1 and 16 ASCII digits. |
| Phone.PhoneFirstDigitNotZero | script.js:185-186 | In an accepted value, the first digit is never '0', however the value is punctuated. |
| Validation.FieldLabel | script.js:166-177 | Each of the seven mapped names gets its label. Any other name falls back to itself. The label is empty only for the empty name. |
| Validation.Diagnose | script.js:128-145 | The message shown is one of the three: "<label> is required", the e-mail message, or the phone message. An all-whitespace value always gets the required message. For a field other than `email` and `phone`, there is no message exactly when the value has a non-whitespace character. |
| Validation.ValidateField | script.js:120-146 | Validation changes only the field's error state. It returns true exactly when the field is left with no error shown. |
| Validation.OnBlur | script.js:109-111 | Leaving a field validates it. Its name and value are kept, and it is left without an error exactly when it is valid. |
| Validation.BlurIdempotent | script.js:109-111 | Leaving a field a second time changes nothing. |
| Validation.OnInput | script.js:107-118 | Typing never raises an error on a field that shows none. A field that shows an error is re-validated as on blur. |
| Validation.RequiredComesFirst | script.js:128-131 | Whatever the field's name, a blank or all-whitespace value gets "<label> is required". No other value gets that message. |
| Validation.ValidIffFormats | script.js:120-146 | A field passes exactly when all three hold: its trimmed value is non-empty; the `email` field matches the e-mail pattern; the `phone` field, once stripped, matches the phone pattern. |
| Validation.FormatMessageCauses | script.js:133-143 | The e-mail message appears exactly when the `email` field is non-blank and fails the e-mail check. The phone message appears exactly when the `phone` field is non-blank and fails the phone check. |
| Validation.OtherFieldsAcceptAnyText | script.js:120-146 | A field other than `email` or `phone` accepts any value that has at least one non-whitespace character. |
| Validation.PriorErrorIrrelevant | script.js:124-126 | The old error marker is cleared first, so the error shown before validation has no influence on its outcome. |
| Validation.PaddingIrrelevant | script.js:121 | Whitespace around the value changes neither the verdict nor the message, because checks run on the trimmed value. |
| FormRecord.Convert | script.js:43-47 | The upload field becomes the file's name when a file with a non-empty name was chosen, and exactly "No files selected" otherwise. It never stays a file. Any other key keeps its value as it came: a string keeps its text, and a file stays a file object. |
| FormRecord.Collect | script.js:42-48 | The entries' keys are exactly the record's keys. Each key holds the converted value of the last entry with that key, so later entries overwrite earlier ones. |
| FormRecord.CollectedUploadIsName | script.js:43-44 | After the loop, the upload field (when present) is a non-empty file name or the sentinel. |
| FormRecord.BuildRecord | script.js:38-54 | The record's keys are exactly the entries' keys plus `leadSource`, `leadType`, `timestamp` and `fullName`. The derived values overwrite same-named form fields. Every other key holds its last entry's value. `fullName` is the rendered first name, a space, and the rendered last name. |
| FormRecord.FullNameFromLastEntries | script.js:54 | `fullName` joins the last `firstName` entry and the last `lastName` entry with one space. |
| FormRecord.MissingFirstNameRendersUndefined | script.js:54 | With no `firstName` entry, `fullName` starts with "undefined ". |
| Submission.Resolve | script.js:73-89 | The success callback runs exactly when a reply arrives with a body that parses as JSON, whatever its HTTP status. A network error and a non-JSON body both reach `.catch`. When the callbacks themselves do not throw, these are the only routes to `.catch`. |
| Submission.ResetControls | script.js:79 | `reset()` puts every control back to its default value. It keeps names and defaults, and leaves any shown validation error in place. |
| Submission.Submit | script.js:31-72 | A submit sets the loading marker and sends exactly one request carrying the built record. It does not check validity, and nothing else visible changes. |
| Submission.ShowSuccessMessage | script.js:189-218 | `showSuccessMessage` adds one notice and changes nothing else on the page. |
| Submission.OnDelivered | script.js:74-88 | The success callback adds a notice, resets the controls, restores the upload area, clears loading, and logs the result as information. It sends nothing. |
| Submission.OnFailed | script.js:89-103 | The failure callback logs the error, then does everything the success callback does to the page. |
| Submission.Settle | script.js:73-103 | Whatever the response, settling a pending request does all of the following: adds one success notice, resets the controls, restores the upload area's default text and colours, clears loading, and re-sends nothing. Only the console line tells success from failure. |
| Submission.BranchesConverge | script.js:74-103 | From the same page, the success callback and the failure callback leave identical screens. |
| Submission.SubmissionConverges | script.js:31-103 | A full submit-then-settle shows the same end screen for every response: success, network failure, or a non-JSON body. |
| Submission.LoadingClearedWhileStillPending | script.js:85 | With two requests in flight, the first to settle already clears the loading marker while the other is still pending. |
| Submission.SubmitIgnoresErrors | script.js:31-54 | A submit sends one request whatever errors the controls show. When a control's value is the last form entry under its name, the sent record holds that value, error or not. The error survives the reset. |
| Carousel.ShowSlide | script.js:234-253 | From any state, the index is stored unconditionally. Exactly the slide and the indicator at that index are active, if they exist; if the index is out of range, none is. |
| Carousel.ChangeSlide | script.js:255-265 | With at least one slide, the new index is in range whatever the old index and direction, and exactly that slide is active. |
| Carousel.CurrentSlide | script.js:267-269 | Indicator `i` (1-based) makes slide `i - 1` the only active slide and indicator `i - 1` the only active indicator, where those exist. Any `i` out of range leaves none active. The result is consistent. |
| Carousel.Load | script.js:272-276 | Both load listeners (this one and the one at lines 226-231) call `showSlide(0)`. After page load the stored index is 0 and the active slide and indicator are exactly those at index 0 that exist. |
| Carousel.ShowSlideTwice | script.js:234-253 | Showing the same index twice has the same effect as showing it once, from any state. |
| Carousel.LoadShowsFirstSlide | script.js:272-276 | `showSlide(0)` runs twice on page load, which equals running it once, for any slide and indicator counts. With at least one slide, the first slide is the only one active. |
| Carousel.ShowCurrentIsIdentity | script.js:234-247 | Showing the current slide of a consistent carousel changes nothing. |
| Carousel.StepIsModular | script.js:255-265 | One step either way is addition modulo the slide count. Forward from the last slide gives the first, and back from the first gives the last. |
| Carousel.StepsUndo | script.js:255-265 | Forward then back, or back then forward, returns a consistent carousel to exactly its previous state. |
| Carousel.AdvanceIsModular | script.js:255-265 | `m` presses of "next" move the index `m` places modulo the slide count. So `n` presses return to the start. |

## Left out

- The comparison slider (`initializeComparisonSliders`). It computes with floating-point division over `getBoundingClientRect`. A zero width gives ±Infinity, which is clamped to 0 or 100, or NaN when the pointer is exactly at the left edge. Each `showSlide` also adds another set of document-level listeners. None of this is modelled.
- The snowfall animation. It is all `Math.random`, `setInterval` and styling.
- The header scroll effect, the IntersectionObserver, the mobile menu toggle, `scrollToContact` and the injected stylesheet. Each is browser styling with no decision in it.
- The file-upload `change` handler. Its only effect the model keeps is the upload area that `Settle` restores. That area is part of the page state, with an arbitrary starting value.
- Creating and removing the error `div`, and the `error` class. Both are represented by the field's optional error message.
- `fetch`, the relay URL, the webhook URL, the request headers and `JSON.stringify`. These are foreign calls. The model records each request body and abstracts the reply as a `Response`.
- The timer that removes the success notice after five seconds, and `scrollIntoView`. Both are fire-and-forget, so the notice count only grows.
- The `setTimeout` in `showSlide` that re-initialises the sliders. It only reaches the slider, which is left out.
- `new Date().toISOString()`. The timestamp is a parameter.
- How FormData enumerates the form's controls. The ordered entry list is an input to `BuildRecord`, and each control's default value is part of the page state.
- JavaScript object-key quirks. These include `labels["constructor"]` being truthy and a form field named `__proto__`. The label table is the seven names plus the fallback, and the record is a plain map.
- The lengths of the slide and indicator lists. They are fixed when the script loads and are taken as the carousel's two counts.
- Submission.SubmitIgnoresErrors: the form entries a submit sends are a parameter, not computed from the page's controls. The lemma links a control to its entry by hypothesis, because how FormData enumerates controls is not modelled.
- Submission.Settle: the upload area and its text paragraph are assumed to exist, so neither callback throws. If the success callback threw, the `.catch` at line 89 would receive that exception too. The page would then get a second notice, and the failure callback would throw at the same lines, so `loading` would never be cleared. The model does not cover this, so `Settle`, `BranchesConverge` and `SubmissionConverges` hold only when the callbacks do not throw.
- Submission.Submit: the browser's own constraint validation is outside the model. Without `novalidate`, a `required` control left empty stops the `submit` event before the listener runs. "Whatever errors the controls show" describes the listener, not the whole page.
- Submission.Settle: it requires a request to be pending. A completion callback runs only for a request that was issued.
- Carousel.ChangeSlide: `script.js` defines `changeSlide` but never calls it; its callers are in the page's markup, which is not part of this model. The modular lemmas (`StepIsModular`, `StepsUndo`, `AdvanceIsModular`) assume those controls pass -1 or +1. For a larger step, the wrap goes to 0 or to the last slide, which is not modular.

=== FILE: carousel.dfy ===
/** The slide carousel: `showSlide`, `changeSlide` and `currentSlide` over the
    module-level `currentSlideIndex` and the two element lists `.carousel-slide`
    and `.indicator` (whose lengths need not agree). */
module Carousel {

  /** The carousel state: how many slides and indicators the page has, the
      stored current index (any integer; it is not range-checked), and which
      slide and indicator indices carry the `active` class. */
  datatype Carousel = Carousel(
    slideCount: nat,
    indicatorCount: nat,
    current: int,
    activeSlides: set<int>,
    activeIndicators: set<int>)

  /** Exactly the element at `k` is active if `0 <= k < count`; otherwise none
      is. */
  ghost predicate OnlyActive(active: set<int>, k: int, count: nat) {
    forall j :: j in active <==> (j == k && 0 <= j < count)
  }

  /** The invariant `showSlide` establishes: the active slide and indicator
      are exactly those at the current index that exist. */
  ghost predicate Consistent(c: Carousel) {
    && OnlyActive(c.activeSlides, c.current, c.slideCount)
    && OnlyActive(c.activeIndicators, c.current, c.indicatorCount)
  }

  /** `showSlide(index)`: every slide and indicator loses `active`, the one at
      `index` gains it where `slides[index]` / `indicators[index]` exists, and
      the index is stored whether or not it is in range. From ANY state the
      result is consistent. */
  function ShowSlide(c: Carousel, index: int): (r: Carousel)
    ensures r.current == index
    ensures r.slideCount == c.slideCount && r.indicatorCount == c.indicatorCount
    ensures OnlyActive(r.activeSlides, index, r.slideCount)
    ensures OnlyActive(r.activeIndicators, index, r.indicatorCount)
  {
    var cleared := c.(activeSlides := {}, activeIndicators := {});
    cleared.(
      activeSlides := if 0 <= index < c.slideCount then {index} else {},
      activeIndicators := if 0 <= index < c.indicatorCount then {index} else {},
      current := index)
  }

  /** The index `changeSlide` moves to: past the end goes to 0, before the
      start goes to the last slide. */
  function NextIndex(current: int, direction: int, count: nat): int {
    var newIndex := current + direction;
    if newIndex >= count then 0
    else if newIndex < 0 then count - 1
    else newIndex
  }

  /** `changeSlide(direction)`. With at least one slide the new index is always
      in range, whatever the old index and the direction, and exactly that
      slide is active. */
  function ChangeSlide(c: Carousel, direction: int): (r: Carousel)
    ensures c.slideCount > 0 ==> 0 <= r.current < c.slideCount
    ensures c.slideCount > 0 ==> r.activeSlides == {r.current}
    ensures Consistent(r)
  {
    ShowSlide(c, NextIndex(c.current, direction, c.slideCount))
  }

  /** `currentSlide(index)`: indicators are numbered from 1, so indicator `i`
      of `1..n` makes slide `i - 1`, and indicator `i - 1`, the only active
      ones. */
  function CurrentSlide(c: Carousel, index: int): (r: Carousel)
    ensures r.current == index - 1
    ensures 1 <= index <= c.slideCount ==> r.activeSlides == {index - 1}
    ensures !(1 <= index <= c.slideCount) ==> r.activeSlides == {}
    ensures 1 <= index <= c.indicatorCount ==> r.activeIndicators == {index - 1}
    ensures !(1 <= index <= c.indicatorCount) ==> r.activeIndicators == {}
    ensures Consistent(r)
  {
    ShowSlide(c, index - 1)
  }

  /** Page load: `showSlide(0)` runs once per DOMContentLoaded listener, and
      there are two. Index 0 is stored and the state is consistent. */
  function Load(slideCount: nat, indicatorCount: nat): (r: Carousel)
    ensures r.current == 0 && Consistent(r)
    ensures r.slideCount == slideCount && r.indicatorCount == indicatorCount
  {
    var c := Carousel(slideCount, indicatorCount, 0, {}, {});
    ShowSlide(ShowSlide(c, 0), 0)
  }

  /** Showing the same slide twice is showing it once, from any state and
      for any slide and indicator counts. */
  lemma ShowSlideTwice(c: Carousel, index: int)
    ensures ShowSlide(ShowSlide(c, index), index) == ShowSlide(c, index)
  {
  }

  /** So the doubled initialisation is harmless, and with at least one slide
      the first slide is the only one active. */
  lemma LoadShowsFirstSlide(slideCount: nat, indicatorCount: nat)
    ensures Load(slideCount, indicatorCount)
         == ShowSlide(Carousel(slideCount, indicatorCount, 0, {}, {}), 0)
    ensures slideCount > 0 ==> Load(slideCount, indicatorCount).activeSlides == {0}
  {
    ShowSlideTwice(Carousel(slideCount, indicatorCount, 0, {}, {}), 0);
  }

  /** A consistent state is left unchanged by showing its own slide. */
  lemma ShowCurrentIsIdentity(c: Carousel)
    requires Consistent(c)
    ensures ShowSlide(c, c.current) == c
  {
    var r := ShowSlide(c, c.current);
    assert forall j :: j in r.activeSlides <==> j in c.activeSlides;
    assert forall j :: j in r.activeIndicators <==> j in c.activeIndicators;
    assert r.activeSlides == c.activeSlides;
    assert r.activeIndicators == c.activeIndicators;
  }

  /** One step either way is addition modulo the number of slides: going
      forward from the last slide gives the first, and going back from the
      first gives the last. */
  lemma StepIsModular(c: Carousel, direction: int)
    requires c.slideCount > 0 && 0 <= c.current < c.slideCount
    requires direction == 1 || direction == -1
    ensures ChangeSlide(c, direction).current == (c.current + direction) % c.slideCount
    ensures c.current == c.slideCount - 1 && direction == 1 ==> ChangeSlide(c, direction).current == 0
    ensures c.current == 0 && direction == -1 ==> ChangeSlide(c, direction).current == c.slideCount - 1
  {
    var n := c.slideCount;
    var s := c.current + direction;
    if s == n {
      assert s % n == 0;
    } else if s == -1 {
      assert s % n == n - 1;
    } else {
      assert s % n == s;
    }
  }

  /** Forward then back returns a consistent carousel to exactly where it
      was, and so does back then forward. */
  lemma StepsUndo(c: Carousel)
    requires Consistent(c) && c.slideCount > 0 && 0 <= c.current < c.slideCount
    ensures ChangeSlide(ChangeSlide(c, 1), -1) == c
    ensures ChangeSlide(ChangeSlide(c, -1), 1) == c
  {
    StepIsModular(c, 1);
    StepIsModular(ChangeSlide(c, 1), -1);
    StepIsModular(c, -1);
    StepIsModular(ChangeSlide(c, -1), 1);
    ShowCurrentIsIdentity(c);
  }

  /** `m` presses of the "next" button. */
  function Advance(c: Carousel, m: nat): Carousel
    decreases m
  {
    if m == 0 then c else ChangeSlide(Advance(c, m - 1), 1)
  }

  /** `m` presses of "next" move `m` slides on, modulo the number of slides;
      in particular `slideCount` presses come back to the start. */
  lemma {:induction false} AdvanceIsModular(c: Carousel, m: nat)
    requires c.slideCount > 0 && 0 <= c.current < c.slideCount
    ensures Advance(c, m).current == (c.current + m) % c.slideCount
    ensures Advance(c, m).slideCount == c.slideCount
    decreases m
  {
    if m > 0 {
      AdvanceIsModular(c, m - 1);
      StepIsModular(Advance(c, m - 1), 1);
      ModAddOne(c.current + (m - 1), c.slideCount);
    }
  }

  lemma MulAtLeast(d: int, n: int)
    requires d >= 1 && n > 0
    ensures d * n >= n
  {
  }

  /** The Euclidean remainder is the unique `r` in `[0, n)` with
      `a == q * n + r`. */
  lemma ModUnique(a: int, n: int, q: int, r: int)
    requires n > 0 && 0 <= r < n && a == q * n + r
    ensures a % n == r
  {
    var q0, r0 := a / n, a % n;
    assert a == q0 * n + r0;
    assert (q - q0) * n == r0 - r;
    if q > q0 {
      MulAtLeast(q - q0, n);
    } else if q < q0 {
      MulAtLeast(q0 - q, n);
    }
  }

  lemma ModAddOne(a: int, n: int)
    requires n > 0
    ensures (a % n + 1) % n == (a + 1) % n
  {
    var q, r := a / n, a % n;
    assert a == q * n + r;
    if r + 1 < n {
      ModUnique(a + 1, n, q, r + 1);
      ModUnique(r + 1, n, 0, r + 1);
    } else {
      assert (q + 1) * n == q * n + n;
      ModUnique(a + 1, n, q + 1, 0);
      ModUnique(n, n, 1, 0);
    }
  }
}

=== FILE: email.dfy ===
/** The e-mail format check of the contact form: `isValidEmail` tests the
    regular expression `^[^\s@]+@[^\s@]+\.[^\s@]+$` against the trimmed value. */
module Email {
  import opened JsText
  import opened Wrappers

  /** The class `[^\s@]`. */
  predicate IsAddrChar(c: char) {
    !IsSpace(c) && c != '@'
  }

  /** `t` is a run of `[^\s@]` characters (possibly empty). */
  predicate AllAddrChars(t: string) {
    forall k :: 0 <= k < |t| ==> IsAddrChar(t[k])
  }

  /** `d` has a '.' with at least one character on each side of it. */
  predicate HasInnerDot(d: string) {
    exists j :: 0 < j < |d| - 1 && d[j] == '.'
  }

  /** One way the regular expression can match all of `s`: the '@' it consumes
      sits at `at`, the escaped '.' at `dot`, and the three `[^\s@]+` runs fill
      the non-empty stretches before, between and after them. */
  predicate MatchesAt(s: string, at: int, dot: int) {
    && 0 < at && at + 1 < dot && dot + 1 < |s|
    && s[at] == '@' && s[dot] == '.'
    && AllAddrChars(s[..at])
    && AllAddrChars(s[at + 1..dot])
    && AllAddrChars(s[dot + 1..])
  }

  /** The regular expression's language: some choice of the two split points
      matches (the backtracking reading of the pattern). */
  ghost predicate MatchesEmailRegex(s: string) {
    exists at, dot :: MatchesAt(s, at, dot)
  }

  /** The first position of `c` in `s`, if any. */
  function IndexOf(s: string, c: char): (r: Option<nat>)
    ensures r.Some? ==> r.value < |s| && s[r.value] == c && c !in s[..r.value]
    ensures r.None? ==> c !in s
  {
    if s == [] then None
    else if s[0] == c then Some(0)
    else
      match IndexOf(s[1..], c)
      case None => None
      case Some(i) =>
        assert s[..i + 1] == [s[0]] + s[1..][..i];
        Some(i + 1)
  }

  /** The compiled reading of the pattern: the text before the first '@' is
      a non-empty run of `[^\s@]`, and the text after it is a run of `[^\s@]`
      holding an inner '.'. */
  predicate SplitsAtFirstAt(s: string) {
    match IndexOf(s, '@')
    case None => false
    case Some(at) =>
      && 0 < at
      && AllAddrChars(s[..at])
      && AllAddrChars(s[at + 1..])
      && HasInnerDot(s[at + 1..])
  }

  /** `isValidEmail`: accepts exactly the language of the regular
      expression. */
  function IsValidEmail(s: string): (ok: bool)
    ensures ok <==> MatchesEmailRegex(s)
  {
    FirstAtSplitMatchesRegex(s);
    SplitsAtFirstAt(s)
  }

  lemma AddrCharsOfSlice(t: string, i: int, j: int)
    requires AllAddrChars(t) && 0 <= i <= j <= |t|
    ensures AllAddrChars(t[i..j])
  {
    forall k | 0 <= k < j - i ensures IsAddrChar(t[i..j][k]) {
      assert t[i..j][k] == t[i + k];
    }
  }

  lemma AddrCharsOfConcat(a: string, b: string)
    requires AllAddrChars(a) && AllAddrChars(b)
    ensures AllAddrChars(a + b)
  {
    forall k | 0 <= k < |a + b| ensures IsAddrChar((a + b)[k]) {
      if k < |a| { assert (a + b)[k] == a[k]; }
      else { assert (a + b)[k] == b[k - |a|]; }
    }
  }

  /** A match fixes the '@': it is the first '@' of the string. */
  lemma MatchFixesAt(s: string, at: int, dot: int)
    requires MatchesAt(s, at, dot)
    ensures IndexOf(s, '@') == Some(at)
  {
    var r := IndexOf(s, '@');
    assert '@' in s by { assert s[at] == '@'; }
    var i := r.value;
    forall k | 0 <= k < i ensures s[k] != '@' {
      assert s[k] == s[..i][k];
    }
    forall k | 0 <= k < at ensures s[k] != '@' {
      assert s[k] == s[..at][k];
    }
  }

  /** Any match of the pattern splits at the first '@'. */
  lemma RegexGivesSplit(s: string, at: int, dot: int)
    requires MatchesAt(s, at, dot)
    ensures SplitsAtFirstAt(s)
  {
    MatchFixesAt(s, at, dot);
    var d := s[at + 1..];
    assert d == s[at + 1..dot] + ['.'] + s[dot + 1..];
    AddrCharsOfConcat(s[at + 1..dot], ['.']);
    AddrCharsOfConcat(s[at + 1..dot] + ['.'], s[dot + 1..]);
    assert d[dot - at - 1] == '.';
  }

  /** A first-'@' split is a match of the pattern. */
  lemma SplitGivesRegex(s: string) returns (at: int, dot: int)
    requires SplitsAtFirstAt(s)
    ensures MatchesAt(s, at, dot)
  {
    at := IndexOf(s, '@').value;
    var d := s[at + 1..];
    var j :| 0 < j < |d| - 1 && d[j] == '.';
    dot := at + 1 + j;
    assert s[at + 1..dot] == d[..j];
    assert s[dot + 1..] == d[j + 1..];
    AddrCharsOfSlice(d, 0, j);
    AddrCharsOfSlice(d, j + 1, |d|);
  }

  /** The first-'@' split decides exactly the regular expression's
      language. */
  lemma FirstAtSplitMatchesRegex(s: string)
    ensures SplitsAtFirstAt(s) <==> MatchesEmailRegex(s)
  {
    if MatchesEmailRegex(s) {
      var at, dot :| MatchesAt(s, at, dot);
      RegexGivesSplit(s, at, dot);
    }
    if SplitsAtFirstAt(s) {
      var at, dot := SplitGivesRegex(s);
    }
  }

  /** The accepted strings are exactly `local + "@" + domain` with `local` a
      non-empty run of `[^\s@]`, `domain` a run of `[^\s@]`, and a '.' inside
      `domain` with a character on each side. */
  lemma EmailShape(local: string, domain: string)
    ensures IsValidEmail(local + "@" + domain)
        <==> |local| > 0 && AllAddrChars(local) && AllAddrChars(domain) && HasInnerDot(domain)
  {
    var s := local + "@" + domain;
    assert s[|local|] == '@';
    assert s[..|local|] == local;
    assert s[|local| + 1..] == domain;
    var at := IndexOf(s, '@').value;
    if at < |local| {
      assert local[at] == '@';
      assert !AllAddrChars(local);
      assert s[at + 1..][|local| - at - 1] == '@';
    }
  }

  /** An accepted address holds exactly one '@': none and two or more are both
      rejected. */
  lemma EmailHasOneAt(s: string)
    ensures IsValidEmail(s) ==> multiset(s)['@'] == 1
  {
    if IsValidEmail(s) {
      var at := IndexOf(s, '@').value;
      assert s == s[..at] + [s[at]] + s[at + 1..];
      assert '@' !in s[at + 1..];
      assert multiset(s) == multiset(s[..at]) + multiset{s[at]} + multiset(s[at + 1..]);
    }
  }
}

=== FILE: form_record.dfy ===
/** The object the submit handler builds from the contact form before sending
    it: every FormData entry stored under its key, the upload field reduced to
    a file name, and four derived properties assigned last. */
module FormRecord {
  import opened Wrappers

  /** A FormData entry value: a string, or a File of which only the name is
      observed. */
  datatype FormValue = Text(text: string) | Upload(fileName: string)

  datatype Entry = Entry(key: string, value: FormValue)

  /** A property of the object sent: a string, or a File object stored as it
      came (only possible under a key other than the upload field). */
  datatype Value = Str(text: string) | FileObject(fileName: string)

  const FileField := "houseImages"
  const NoFilesSelected := "No files selected"
  const LeadSource := "Website Quote Request"
  const LeadType := "Christmas Lights Installation"
  const DerivedKeys: set<string> := {"leadSource", "leadType", "timestamp", "fullName"}

  /** The loop body for one entry. The upload field becomes `value.name`, or
      the sentinel when that is empty or missing (a string value has no
      `name`): it is always a non-empty string and never the file itself. Any
      other key keeps its value. */
  function Convert(e: Entry): (v: Value)
    ensures e.key == FileField ==> v.Str? && v.text != ""
    ensures e.key == FileField && e.value.Upload? && e.value.fileName != "" ==> v.text == e.value.fileName
    ensures e.key == FileField && !(e.value.Upload? && e.value.fileName != "") ==> v == Str(NoFilesSelected)
    ensures e.key != FileField && e.value.Text? ==> v == Str(e.value.text)
    ensures e.key != FileField && e.value.Upload? ==> v == FileObject(e.value.fileName)
  {
    if e.key == FileField then
      match e.value
      case Upload(name) => Str(if name != "" then name else NoFilesSelected)
      case Text(_) => Str(NoFilesSelected)
    else
      match e.value
      case Text(t) => Str(t)
      case Upload(name) => FileObject(name)
  }

  /** Entry `i` is the last one in `es` with its key. */
  predicate IsLastFor(es: seq<Entry>, i: int) {
    0 <= i < |es| && forall j :: i < j < |es| ==> es[j].key != es[i].key
  }

  function KeysOf(es: seq<Entry>): set<string> {
    set i | 0 <= i < |es| :: es[i].key
  }

  /** The `for ... of formData.entries()` loop, a left fold. Its keys are the
      entries' keys, and each holds the converted value of the LAST entry with
      that key: a later entry overwrites an earlier one. */
  function Collect(es: seq<Entry>): (data: map<string, Value>)
    ensures data.Keys == KeysOf(es)
    ensures forall i :: IsLastFor(es, i) ==> data[es[i].key] == Convert(es[i])
  {
    if es == [] then map[]
    else
      KeysOfInit(es);
      LastForInit(es);
      Collect(es[..|es| - 1])[es[|es| - 1].key := Convert(es[|es| - 1])]
  }

  lemma KeysOfInit(es: seq<Entry>)
    requires es != []
    ensures KeysOf(es) == KeysOf(es[..|es| - 1]) + {es[|es| - 1].key}
  {
    var init := es[..|es| - 1];
    forall k | k in KeysOf(es) ensures k in KeysOf(init) + {es[|es| - 1].key} {
      var i :| 0 <= i < |es| && es[i].key == k;
      if i < |es| - 1 { assert init[i] == es[i]; }
    }
    forall k | k in KeysOf(init) ensures k in KeysOf(es) {
      var i :| 0 <= i < |init| && init[i].key == k;
      assert es[i] == init[i];
    }
  }

  lemma LastForInit(es: seq<Entry>)
    requires es != []
    ensures forall i :: IsLastFor(es, i) && i < |es| - 1 ==>
      IsLastFor(es[..|es| - 1], i) && es[..|es| - 1][i] == es[i] && es[i].key != es[|es| - 1].key
  {
  }

  /** Every collected key has a last entry. */
  lemma {:induction false} LastEntry(es: seq<Entry>, k: string) returns (i: int)
    requires k in KeysOf(es)
    ensures IsLastFor(es, i) && es[i].key == k
    decreases |es|
  {
    var n := |es| - 1;
    if es[n].key == k {
      i := n;
    } else {
      var init := es[..n];
      assert k in KeysOf(init) by {
        var m :| 0 <= m < |es| && es[m].key == k;
        assert init[m] == es[m];
      }
      i := LastEntry(init, k);
      assert init[i] == es[i];
    }
  }

  /** The collected upload field, when present, is a non-empty string. */
  lemma CollectedUploadIsName(es: seq<Entry>)
    ensures FileField in Collect(es) ==> Collect(es)[FileField].Str? && Collect(es)[FileField].text != ""
  {
    if FileField in Collect(es) {
      var i := LastEntry(es, FileField);
    }
  }

  function Get(m: map<string, Value>, k: string): Option<Value> {
    if k in m then Some(m[k]) else None
  }

  /** How a template literal `${data.k}` prints a property: a string as
      itself, a File object as "[object File]", a missing one as
      "undefined". */
  function Render(v: Option<Value>): string {
    match v
    case None => "undefined"
    case Some(Str(t)) => t
    case Some(FileObject(_)) => "[object File]"
  }

  /** Lines 38-54 of the submit handler: the collected entries, then
      `leadSource`, `leadType`, `timestamp` and `fullName` assigned over them.
      The record's keys are the entries' keys and the four derived ones and no
      others; a derived key always holds the derived value, even when the form
      had a field of that name; every other key holds its last entry's
      converted value; the upload field, when present, is a non-empty file
      name or the sentinel. */
  function BuildRecord(es: seq<Entry>, timestamp: string): (data: map<string, Value>)
    ensures data.Keys == KeysOf(es) + DerivedKeys
    ensures forall i :: IsLastFor(es, i) && es[i].key !in DerivedKeys ==> data[es[i].key] == Convert(es[i])
    ensures data["leadSource"] == Str(LeadSource)
    ensures data["leadType"] == Str(LeadType)
    ensures data["timestamp"] == Str(timestamp)
    ensures data["fullName"] == Str(Render(Get(Collect(es), "firstName")) + " " + Render(Get(Collect(es), "lastName")))
    ensures FileField in data ==> data[FileField].Str? && data[FileField].text != ""
  {
    var collected := Collect(es);
    CollectedUploadIsName(es);
    var data := collected["leadSource" := Str(LeadSource)];
    var data := data["leadType" := Str(LeadType)];
    var data := data["timestamp" := Str(timestamp)];
    data["fullName" := Str(Render(Get(data, "firstName")) + " " + Render(Get(data, "lastName")))]
  }

  /** The full name joins the last `firstName` and `lastName` entries with one
      space. */
  lemma FullNameFromLastEntries(es: seq<Entry>, timestamp: string, i: int, j: int)
    requires IsLastFor(es, i) && es[i].key == "firstName"
    requires IsLastFor(es, j) && es[j].key == "lastName"
    ensures BuildRecord(es, timestamp)["fullName"]
         == Str(Render(Some(Convert(es[i]))) + " " + Render(Some(Convert(es[j]))))
  {
  }

  /** With no `firstName` entry the full name starts with "undefined ". */
  lemma MissingFirstNameRendersUndefined(es: seq<Entry>, timestamp: string)
    requires "firstName" !in KeysOf(es)
    ensures BuildRecord(es, timestamp)["fullName"].text[..10] == "undefined "
  {
  }
}

=== FILE: js_text.dfy ===
/** The pieces of JavaScript string semantics the page's logic relies on: the
    `\s` character class, `\d`, and `String.prototype.trim`.

    JavaScript strings are sequences of UTF-16 code units; here a string is a
    `seq<char>` of Unicode scalar values, which agree on every character the
    whitespace class names (all of them lie in the Basic Multilingual Plane). */
module JsText {

  /** The `\s` class of JavaScript regular expressions, which is also exactly the
      set `trim` removes: the WhiteSpace and LineTerminator code points of
      ECMAScript (tab, line feed, vertical tab, form feed, carriage return, space,
      no-break space, the Unicode space separators, the line and paragraph
      separators and the byte-order mark). */
  predicate IsSpace(c: char) {
    var n := c as int;
    || (0x09 <= n <= 0x0D)
    || n == 0x20
    || n == 0xA0
    || n == 0x1680
    || (0x2000 <= n <= 0x200A)
    || n == 0x2028
    || n == 0x2029
    || n == 0x202F
    || n == 0x205F
    || n == 0x3000
    || n == 0xFEFF
  }

  /** The `\d` class: ASCII digits only. */
  predicate IsDigit(c: char) {
    '0' <= c <= '9'
  }

  predicate AllSpace(s: string) {
    forall k :: 0 <= k < |s| ==> IsSpace(s[k])
  }

  /** How many whitespace characters `s` starts with. */
  function LeadingSpaces(s: string): (n: nat)
    ensures n <= |s|
    ensures forall k :: 0 <= k < n ==> IsSpace(s[k])
    ensures n < |s| ==> !IsSpace(s[n])
  {
    if |s| > 0 && IsSpace(s[0]) then
      var m := LeadingSpaces(s[1..]);
      assert forall k :: 1 <= k < 1 + m ==> s[k] == s[1..][k - 1];
      1 + m
    else
      0
  }

  /** Where the trailing whitespace of `s` begins. */
  function ContentEnd(s: string): (n: nat)
    ensures n <= |s|
    ensures forall k :: n <= k < |s| ==> IsSpace(s[k])
    ensures n > 0 ==> !IsSpace(s[n - 1])
  {
    if |s| > 0 && IsSpace(s[|s| - 1]) then
      var m := ContentEnd(s[..|s| - 1]);
      assert forall k :: m <= k < |s| - 1 ==> s[k] == s[..|s| - 1][k];
      m
    else
      |s|
  }

  /** `String.prototype.trim`: the leading and the trailing whitespace are
      dropped. The result is empty exactly when `s` holds nothing but
      whitespace; otherwise it starts and ends with a non-space. */
  function Trim(s: string): (r: string)
    ensures |r| <= |s|
    ensures r == [] <==> AllSpace(s)
    ensures r != [] ==> !IsSpace(r[0]) && !IsSpace(r[|r| - 1])
  {
    var i := LeadingSpaces(s);
    if i == |s| then [] else s[i..ContentEnd(s)]
  }

  lemma AllSpaceConcat(a: string, b: string)
    ensures AllSpace(a + b) <==> AllSpace(a) && AllSpace(b)
  {
    if AllSpace(a + b) {
      forall k | 0 <= k < |b| ensures IsSpace(b[k]) {
        assert b[k] == (a + b)[|a| + k];
      }
      forall k | 0 <= k < |a| ensures IsSpace(a[k]) {
        assert a[k] == (a + b)[k];
      }
    }
  }

  /** The trimmed string is the slice `s[i..j]` and everything outside it is
      whitespace. */
  lemma TrimIsSlice(s: string) returns (i: nat, j: nat)
    ensures i <= j <= |s|
    ensures Trim(s) == s[i..j]
    ensures AllSpace(s[..i]) && AllSpace(s[j..])
  {
    i := LeadingSpaces(s);
    j := if i == |s| then |s| else ContentEnd(s);
    assert forall k :: 0 <= k < i ==> s[..i][k] == s[k];
    assert forall k :: 0 <= k < |s| - j ==> s[j..][k] == s[j + k];
  }

  /** `s` cut as whitespace, a core that is empty or has a non-space at both
      ends, and whitespace again. */
  predicate PaddedCore(a: string, m: string, b: string) {
    && AllSpace(a) && AllSpace(b)
    && (m == [] || (!IsSpace(m[0]) && !IsSpace(m[|m| - 1])))
  }

  /** The leading whitespace of a padded core is exactly the padding before
      it. */
  lemma LeadingOfPadded(a: string, m: string, b: string)
    requires PaddedCore(a, m, b) && m != []
    ensures LeadingSpaces(a + m + b) == |a|
  {
    var s := a + m + b;
    var n := LeadingSpaces(s);
    assert s[|a|] == m[0];
    assert forall k :: 0 <= k < |a| ==> s[k] == a[k];
  }

  /** The trailing whitespace of a padded core is exactly the padding after
      it. */
  lemma ContentEndOfPadded(a: string, m: string, b: string)
    requires PaddedCore(a, m, b) && m != []
    ensures ContentEnd(a + m + b) == |a| + |m|
  {
    var s := a + m + b;
    var n := ContentEnd(s);
    assert s[|a| + |m| - 1] == m[|m| - 1];
    assert forall k :: |a| + |m| <= k < |s| ==> s[k] == b[k - |a| - |m|];
  }

  /** Whatever padding surrounds a core, `trim` returns exactly the core: the
      cut is unique. */
  lemma TrimOfPadded(a: string, m: string, b: string)
    requires PaddedCore(a, m, b)
    ensures Trim(a + m + b) == m
  {
    var s := a + m + b;
    if m == [] {
      assert s == a + b;
      AllSpaceConcat(a, b);
    } else {
      LeadingOfPadded(a, m, b);
      ContentEndOfPadded(a, m, b);
      assert s[|a|..|a| + |m|] == m;
    }
  }

  /** A string is its three slices cut at `i` and `j`, put back together. */
  lemma SplitThree(v: string, i: nat, j: nat)
    requires i <= j <= |v|
    ensures v == v[..i] + v[i..j] + v[j..]
  {
  }

  /** Regrouping five pieces around the middle one. */
  lemma Regroup(p: string, x: string, m: string, y: string, q: string)
    ensures p + (x + m + y) + q == (p + x) + m + (y + q)
  {
  }

  /** Whitespace around a value does not change what `trim` returns. */
  lemma TrimIgnoresPadding(lead: string, v: string, trail: string)
    requires AllSpace(lead) && AllSpace(trail)
    ensures Trim(lead + v + trail) == Trim(v)
  {
    var i, j := TrimIsSlice(v);
    var m := Trim(v);
    SplitThree(v, i, j);
    Regroup(lead, v[..i], m, v[j..], trail);
    AllSpaceConcat(lead, v[..i]);
    AllSpaceConcat(v[j..], trail);
    TrimOfPadded(lead + v[..i], m, v[j..] + trail);
  }

  /** A string with no whitespace at either end is its own trim. */
  lemma TrimOfTrimmed(r: string)
    requires r == [] || (!IsSpace(r[0]) && !IsSpace(r[|r| - 1]))
    ensures Trim(r) == r
  {
    assert [] + r + [] == r;
    TrimOfPadded([], r, []);
  }

  /** Trimming twice is trimming once. */
  lemma TrimIdempotent(s: string)
    ensures Trim(Trim(s)) == Trim(s)
  {
    TrimOfTrimmed(Trim(s));
  }
}

=== FILE: phone.dfy ===
/** The telephone format check of the contact form: `isValidPhone` deletes
    every character of `[\s\-\(\)]` and tests `^[\+]?[1-9][\d]{0,15}$` against
    what is left. */
module Phone {
  import opened JsText

  /** The class `[\s\-\(\)]`: whitespace, hyphen and both parentheses. */
  predicate IsSeparator(c: char) {
    IsSpace(c) || c == '-' || c == '(' || c == ')'
  }

  /** `phone.replace(/[\s\-\(\)]/g, '')`: the result is no longer than the
      input and holds no separator. */
  function StripSeparators(s: string): (r: string)
    ensures |r| <= |s|
    ensures forall k :: 0 <= k < |r| ==> !IsSeparator(r[k])
  {
    if s == [] then []
    else
      var rest := StripSeparators(s[1..]);
      if IsSeparator(s[0]) then rest else [s[0]] + rest
  }

  /** Stripping deletes every separator and keeps every other character as
      often as it occurred. */
  lemma {:induction false} StripCount(s: string, c: char)
    ensures multiset(StripSeparators(s))[c] == if IsSeparator(c) then 0 else multiset(s)[c]
    decreases |s|
  {
    if s != [] {
      StripCount(s[1..], c);
      assert s == [s[0]] + s[1..];
      assert multiset(s) == multiset{s[0]} + multiset(s[1..]);
      var rest := StripSeparators(s[1..]);
      if !IsSeparator(s[0]) {
        assert multiset([s[0]] + rest) == multiset{s[0]} + multiset(rest);
      }
    }
  }

  /** `[1-9][\d]{0,15}`: one to sixteen ASCII digits, the first not '0'. */
  predicate IsNationalNumber(u: string) {
    && 1 <= |u| <= 16
    && '1' <= u[0] <= '9'
    && forall k :: 1 <= k < |u| ==> IsDigit(u[k])
  }

  /** `^[\+]?[1-9][\d]{0,15}$`: a national number, with or without one
      leading '+'. */
  predicate MatchesPhoneRegex(t: string) {
    || IsNationalNumber(t)
    || (|t| > 0 && t[0] == '+' && IsNationalNumber(t[1..]))
  }

  /** `isValidPhone`: the pattern tested against the stripped value. Whatever
      the punctuation, an accepted value holds one to sixteen digits. */
  function IsValidPhone(s: string): (ok: bool)
    ensures ok ==> 1 <= DigitCount(s) <= 16
  {
    if MatchesPhoneRegex(StripSeparators(s)) then
      PhoneDigitCount(s);
      true
    else
      false
  }

  /** Number of ASCII digits in `s`. */
  function DigitCount(s: string): nat {
    if s == [] then 0 else (if IsDigit(s[0]) then 1 else 0) + DigitCount(s[1..])
  }

  /** Stripping distributes over concatenation: the deletion is character by
      character and keeps the order of what it keeps. */
  lemma {:induction false} StripConcat(a: string, b: string)
    ensures StripSeparators(a + b) == StripSeparators(a) + StripSeparators(b)
    decreases |a|
  {
    if a == [] {
      assert a + b == b;
    } else {
      assert (a + b)[0] == a[0];
      assert (a + b)[1..] == a[1..] + b;
      StripConcat(a[1..], b);
    }
  }

  /** A string without separators is left as it is. */
  lemma {:induction false} StripNoSeparators(s: string)
    requires forall k :: 0 <= k < |s| ==> !IsSeparator(s[k])
    ensures StripSeparators(s) == s
    decreases |s|
  {
    if s != [] {
      StripNoSeparators(s[1..]);
    }
  }

  /** Typing a separator anywhere never changes the verdict. */
  lemma PhoneIgnoresSeparators(a: string, b: string, c: char)
    requires IsSeparator(c)
    ensures IsValidPhone(a + [c] + b) == IsValidPhone(a + b)
  {
    StripConcat(a + [c], b);
    StripConcat(a, [c]);
    StripConcat(a, b);
    assert StripSeparators([c]) == [];
    assert StripSeparators(a) + [] == StripSeparators(a);
  }

  /** Every national number is accepted, with or without a leading '+'. */
  lemma PhoneAcceptsNumber(u: string)
    requires IsNationalNumber(u)
    ensures IsValidPhone(u)
    ensures IsValidPhone("+" + u)
  {
    StripNoSeparators(u);
    var p := "+" + u;
    forall k | 0 <= k < |p| ensures !IsSeparator(p[k]) {
      if k > 0 { assert p[k] == u[k - 1]; }
    }
    StripNoSeparators(p);
    assert p[1..] == u;
  }

  /** An accepted value consists only of digits, '+' and separators: any
      other character, such as '.', is rejected. */
  lemma PhoneCharsAllowed(s: string, k: int)
    requires IsValidPhone(s) && 0 <= k < |s|
    ensures IsDigit(s[k]) || s[k] == '+' || IsSeparator(s[k])
  {
    var t := StripSeparators(s);
    if !IsSeparator(s[k]) {
      StripCount(s, s[k]);
      assert s[k] in multiset(s);
      assert s[k] in multiset(t);
      var i :| 0 <= i < |t| && t[i] == s[k];
      if i > 0 && t[0] == '+' {
        assert t[1..][i - 1] == t[i];
      }
    }
  }

  lemma {:induction false} StripKeepsDigitCount(s: string)
    ensures DigitCount(StripSeparators(s)) == DigitCount(s)
    decreases |s|
  {
    if s != [] {
      StripKeepsDigitCount(s[1..]);
      var rest := StripSeparators(s[1..]);
      if !IsSeparator(s[0]) {
        assert ([s[0]] + rest)[1..] == rest;
      }
    }
  }

  lemma {:induction false} DigitCountOfDigits(u: string)
    requires forall k :: 0 <= k < |u| ==> IsDigit(u[k])
    ensures DigitCount(u) == |u|
    decreases |u|
  {
    if u != [] {
      DigitCountOfDigits(u[1..]);
    }
  }

  /** An accepted value holds between one and sixteen digits. */
  lemma PhoneDigitCount(s: string)
    requires MatchesPhoneRegex(StripSeparators(s))
    ensures 1 <= DigitCount(s) <= 16
  {
    var t := StripSeparators(s);
    StripKeepsDigitCount(s);
    if IsNationalNumber(t) {
      DigitCountOfDigits(t);
    } else {
      DigitCountOfDigits(t[1..]);
    }
  }

  /** The first digit of an accepted value is never '0', however the value
      is punctuated. */
  lemma PhoneFirstDigitNotZero(s: string, i: int)
    requires IsValidPhone(s)
    requires 0 <= i < |s| && IsDigit(s[i])
    requires forall k :: 0 <= k < i ==> !IsDigit(s[k])
    ensures s[i] != '0'
  {
    var t := StripSeparators(s);
    var pre := StripSeparators(s[..i]);
    var post := StripSeparators(s[i..]);
    assert s == s[..i] + s[i..];
    StripConcat(s[..i], s[i..]);
    assert t == pre + post;
    assert s[i..] == [s[i]] + s[i + 1..];
    assert post == [s[i]] + StripSeparators(s[i + 1..]);
    forall j | 0 <= j < |pre| ensures !IsDigit(pre[j]) && t[j] == pre[j] {
      StripCount(s[..i], pre[j]);
      assert pre[j] in multiset(pre);
      assert pre[j] in multiset(s[..i]);
      var k :| 0 <= k < |s[..i]| && s[..i][k] == pre[j];
    }
    assert t[|pre|] == s[i];
    if MatchesPhoneRegex(t) && !IsNationalNumber(t) {
      assert t[1..][0] == t[1];
    }
  }
}

=== FILE: submission.dfy ===
/** The submit handler as a state machine over what the page shows. A submit
    marks the form as loading and sends one request carrying the form record;
    each request later settles through the `.then` branch or the `.catch`
    branch, and both branches leave the page in the same visible state. */
module Submission {
  import opened Validation
  import Wrappers
  import FormRecord

  const DefaultUploadText := "Click to upload photos of your home's front and back"
  const DefaultUploadBorder := "#444444"
  const DefaultUploadBackground := "#1a1a1a"
  const DeliveredLog := "Form submitted successfully:"
  const FailedLog := "Error submitting form:"

  /** The file-upload area: its helper text and its two colours. */
  datatype UploadArea = UploadArea(text: string, border: string, background: string)

  const DefaultUploadArea := UploadArea(DefaultUploadText, DefaultUploadBorder, DefaultUploadBackground)

  /** A form control: its validation state and the value `reset()` restores. */
  datatype Control = Control(field: Field, default: string)

  /** A line written to the console: diagnostics only, never shown. */
  datatype LogLine = Info(text: string, detail: string) | Error(text: string, detail: string)

  /** What the fetch chain produced: the request failed outright, or a
      response arrived whose body did or did not parse as JSON. The status
      code does not matter: `fetch` resolves on any HTTP status. */
  datatype Response =
    | NetworkError(reason: string)
    | HttpReply(status: int, json: Wrappers.Option<string>)

  /** The result the two completion callbacks receive. */
  datatype Outcome = Delivered(result: string) | Failed(reason: string)

  /** The page as the submission logic sees it. `pending` counts requests
      sent and not yet settled; `notices` counts success messages inserted;
      `sent` lists every request body in order. */
  datatype Page = Page(
    controls: seq<Control>,
    loading: bool,
    upload: UploadArea,
    notices: nat,
    pending: nat,
    sent: seq<map<string, FormRecord.Value>>,
    log: seq<LogLine>)

  /** Everything a visitor can see: the whole page but the console. */
  datatype Screen = Screen(controls: seq<Control>, loading: bool, upload: UploadArea, notices: nat)

  function Visible(p: Page): Screen {
    Screen(p.controls, p.loading, p.upload, p.notices)
  }

  /** `.then(response => response.json())`: a network failure and a body
      that is not JSON both reject the chain and so reach `.catch`; any
      parsed body reaches the success callback, whatever the status. */
  function Resolve(r: Response): (o: Outcome)
    ensures o.Delivered? <==> r.HttpReply? && r.json.Some?
  {
    match r
    case NetworkError(reason) => Failed(reason)
    case HttpReply(_, json) =>
      match json
      case None => Failed("body is not JSON")
      case Some(body) => Delivered(body)
  }

  /** `contactForm.reset()`: every control goes back to its default value;
      the error shown beside a control is left as it was. */
  function ResetControls(cs: seq<Control>): (rs: seq<Control>)
    ensures |rs| == |cs|
    ensures forall i :: 0 <= i < |cs| ==> rs[i].field.value == rs[i].default == cs[i].default
    ensures forall i :: 0 <= i < |cs| ==>
      rs[i].field.name == cs[i].field.name && rs[i].field.error == cs[i].field.error
  {
    seq(|cs|, i requires 0 <= i < |cs| => cs[i].(field := cs[i].field.(value := cs[i].default)))
  }

  /** `showSuccessMessage`: one more notice on the page, and nothing else
      changes. */
  function ShowSuccessMessage(p: Page): (q: Page)
    ensures q.notices == p.notices + 1
    ensures q.controls == p.controls && q.loading == p.loading && q.upload == p.upload
    ensures q.pending == p.pending && q.sent == p.sent && q.log == p.log
  {
    p.(notices := p.notices + 1)
  }

  /** The submit listener: loading is set and exactly one request carrying
      the form record is sent. The form's validity is not consulted. Nothing
      else visible changes. */
  function Submit(p: Page, entries: seq<FormRecord.Entry>, timestamp: string): (q: Page)
    ensures q.loading && q.pending == p.pending + 1
    ensures q.sent == p.sent + [FormRecord.BuildRecord(entries, timestamp)]
    ensures q.controls == p.controls && q.upload == p.upload && q.notices == p.notices
  {
    p.(loading := true,
       pending := p.pending + 1,
       sent := p.sent + [FormRecord.BuildRecord(entries, timestamp)])
  }

  /** The success callback: a notice, the form reset, the upload area
      restored, loading cleared, and the result logged as information. */
  function OnDelivered(p: Page, result: string): (q: Page)
    ensures q.notices == p.notices + 1 && q.controls == ResetControls(p.controls)
    ensures q.upload == DefaultUploadArea && !q.loading
    ensures q.pending == p.pending && q.sent == p.sent
    ensures q.log == p.log + [Info(DeliveredLog, result)]
  {
    var p := ShowSuccessMessage(p);
    var p := p.(controls := ResetControls(p.controls));
    var p := p.(upload := DefaultUploadArea);
    var p := p.(loading := false);
    p.(log := p.log + [Info(DeliveredLog, result)])
  }

  /** The failure callback: logs the error, then does what the success
      callback does. */
  function OnFailed(p: Page, reason: string): (q: Page)
    ensures q.notices == p.notices + 1 && q.controls == ResetControls(p.controls)
    ensures q.upload == DefaultUploadArea && !q.loading
    ensures q.pending == p.pending && q.sent == p.sent
    ensures q.log == p.log + [Error(FailedLog, reason)]
  {
    var p := p.(log := p.log + [Error(FailedLog, reason)]);
    var p := ShowSuccessMessage(p);
    var p := p.(controls := ResetControls(p.controls));
    var p := p.(upload := DefaultUploadArea);
    p.(loading := false)
  }

  /** One pending request settles. Whatever the response, one success notice
      appears, every control is back to its default, the upload area is back
      to its default, loading is cleared and nothing is re-sent; only the
      console line tells the outcomes apart. */
  function Settle(p: Page, r: Response): (q: Page)
    requires p.pending > 0
    ensures q.notices == p.notices + 1
    ensures q.controls == ResetControls(p.controls)
    ensures q.upload == DefaultUploadArea
    ensures !q.loading
    ensures q.pending == p.pending - 1
    ensures q.sent == p.sent
    ensures |q.log| == |p.log| + 1 && q.log[..|p.log|] == p.log
    ensures q.log[|p.log|].Info? <==> r.HttpReply? && r.json.Some?
  {
    var p := p.(pending := p.pending - 1);
    match Resolve(r)
    case Delivered(result) => OnDelivered(p, result)
    case Failed(reason) => OnFailed(p, reason)
  }

  /** The two completion branches converge: from the same page, a success
      and a failure leave the same screen. */
  lemma BranchesConverge(p: Page, result: string, reason: string)
    ensures Visible(OnDelivered(p, result)) == Visible(OnFailed(p, reason))
  {
  }

  /** A whole submission, from submit to settlement, shows the visitor the
      same end state whether the network answered, failed, or sent back
      something that is not JSON. */
  lemma SubmissionConverges(p: Page, entries: seq<FormRecord.Entry>, timestamp: string, r1: Response, r2: Response)
    ensures Visible(Settle(Submit(p, entries, timestamp), r1))
         == Visible(Settle(Submit(p, entries, timestamp), r2))
  {
  }

  /** With two requests in flight, the first to settle already clears the
      loading marker although the other is still pending. */
  lemma LoadingClearedWhileStillPending(p: Page, r: Response)
    requires p.pending > 1
    ensures !Settle(p, r).loading && Settle(p, r).pending > 0
  {
  }

  /** Submitting ignores validation: a control's value is sent whether or not
      the control shows an error, provided it is the last entry under its
      name (and the name is neither the upload field nor a derived key), and
      the error stays after the form is reset. */
  lemma SubmitIgnoresErrors(p: Page, entries: seq<FormRecord.Entry>, timestamp: string, r: Response, i: int, k: int)
    requires 0 <= i < |p.controls|
    requires FormRecord.IsLastFor(entries, k)
    requires entries[k] == FormRecord.Entry(p.controls[i].field.name, FormRecord.Text(p.controls[i].field.value))
    requires entries[k].key != FormRecord.FileField && entries[k].key !in FormRecord.DerivedKeys
    ensures |Settle(Submit(p, entries, timestamp), r).sent| == |p.sent| + 1
    ensures Settle(Submit(p, entries, timestamp), r).sent[|p.sent|][p.controls[i].field.name]
         == FormRecord.Str(p.controls[i].field.value)
    ensures Settle(Submit(p, entries, timestamp), r).controls[i].field.error == p.controls[i].field.error
  {
  }
}

=== FILE: validation.dfy ===
/** Per-field validation of the contact form's required controls
    (`validateField`, `getFieldLabel`) and the `blur` / `input` listeners that
    call it. The error shown beside a field (its `error` class together with
    the `.field-error` element) is modelled as an optional message. */
module Validation {
  import opened Wrappers
  import opened JsText
  import Email
  import Phone

  const RequiredSuffix := " is required"
  const EmailMessage := "Please enter a valid email address"
  const PhoneMessage := "Please enter a valid phone number"

  /** The fixed table of human-readable field labels. */
  const Labels: map<string, string> := map[
    "firstName" := "First Name",
    "lastName" := "Last Name",
    "email" := "Email Address",
    "phone" := "Phone Number",
    "address" := "Property Address",
    "quoteType" := "Quote Type",
    "description" := "Description"
  ]

  /** `getFieldLabel`: `labels[fieldName] || fieldName`. Every table entry is
      non-empty, so a mapped name always gets its label; any other name falls
      back to itself, and the label is empty only for the empty name. */
  function FieldLabel(name: string): (shown: string)
    ensures name in Labels ==> shown == Labels[name]
    ensures name !in Labels ==> shown == name
    ensures shown == [] <==> name == []
  {
    if name in Labels && Labels[name] != "" then Labels[name] else name
  }

  /** A required control as validation sees it: its `name`, its raw `value`,
      and the error message displayed beside it, if any. */
  datatype Field = Field(name: string, value: string, error: Option<string>)

  /** What `validateField` returns, and the field as it leaves it. */
  datatype Verdict = Verdict(valid: bool, field: Field)

  /** The one message `validateField` shows for `raw` in the field `name`, or
      None when every check passes: the required check on the trimmed value
      first, then the e-mail check (only for `email`), then the phone check
      (only for `phone`). */
  function Diagnose(name: string, raw: string): (d: Option<string>)
    ensures d.Some? ==> d.value in {FieldLabel(name) + RequiredSuffix, EmailMessage, PhoneMessage}
    ensures AllSpace(raw) ==> d == Some(FieldLabel(name) + RequiredSuffix)
    ensures name != "email" && name != "phone" ==> (d.None? <==> !AllSpace(raw))
  {
    var value := Trim(raw);
    if value == [] then Some(FieldLabel(name) + RequiredSuffix)
    else if name == "email" && !Email.IsValidEmail(value) then Some(EmailMessage)
    else if name == "phone" && !Phone.IsValidPhone(value) then Some(PhoneMessage)
    else None
  }

  /** `validateField`: the old error is removed first, then at most one new
      message is attached; the result is true exactly when none was. Name and
      value are never touched. */
  function ValidateField(f: Field): (v: Verdict)
    ensures v.field.name == f.name && v.field.value == f.value
    ensures v.valid <==> v.field.error.None?
  {
    var cleared := f.(error := None);
    var e := Diagnose(cleared.name, cleared.value);
    Verdict(e.None?, cleared.(error := e))
  }

  /** The listener for `blur`: always validates, keeping name and value, and
      leaves the field without an error exactly when it is valid. */
  function OnBlur(f: Field): (g: Field)
    ensures g.name == f.name && g.value == f.value
    ensures g.error.None? <==> ValidateField(f).valid
  {
    ValidateField(f).field
  }

  /** The listener for `input`: the value changes and the field is validated
      again only while it shows an error. So typing never raises an error on
      a field that has none, and a field that shows one is judged afresh. */
  function OnInput(f: Field, newValue: string): (g: Field)
    ensures g.name == f.name && g.value == newValue
    ensures f.error.None? ==> g.error.None?
    ensures f.error.Some? ==> g == OnBlur(f.(value := newValue))
  {
    var typed := f.(value := newValue);
    if typed.error.Some? then OnBlur(typed) else typed
  }

  /** The three messages never coincide: a required message ends in 'd', the
      e-mail message in 's', the phone message in 'r'. */
  lemma MessagesDistinct(name: string)
    ensures FieldLabel(name) + RequiredSuffix != EmailMessage
    ensures FieldLabel(name) + RequiredSuffix != PhoneMessage
    ensures EmailMessage != PhoneMessage
  {
    var req := FieldLabel(name) + RequiredSuffix;
    assert req[|req| - 1] == 'd';
    assert EmailMessage[|EmailMessage| - 1] == 's';
    assert PhoneMessage[|PhoneMessage| - 1] == 'r';
  }

  /** The required check comes first, whatever the field's name: a blank or
      all-whitespace value gets "<label> is required", and no other value
      does. */
  lemma RequiredComesFirst(f: Field)
    ensures ValidateField(f).field.error == Some(FieldLabel(f.name) + RequiredSuffix)
        <==> AllSpace(f.value)
  {
    MessagesDistinct(f.name);
  }

  /** A field passes exactly when its trimmed value is non-empty, matches the
      e-mail pattern if the field is `email`, and matches the phone pattern
      (after the separators are stripped) if the field is `phone`. */
  lemma ValidIffFormats(f: Field)
    ensures ValidateField(f).valid
        <==> && !AllSpace(f.value)
             && (f.name == "email" ==> Email.MatchesEmailRegex(Trim(f.value)))
             && (f.name == "phone" ==> Phone.MatchesPhoneRegex(Phone.StripSeparators(Trim(f.value))))
  {
  }

  /** Each format message has exactly one cause: the e-mail message appears
      only on the `email` field when a non-blank value fails the e-mail check,
      and the phone message likewise for `phone`. */
  lemma FormatMessageCauses(f: Field)
    ensures ValidateField(f).field.error == Some(EmailMessage)
        <==> f.name == "email" && !AllSpace(f.value) && !Email.IsValidEmail(Trim(f.value))
    ensures ValidateField(f).field.error == Some(PhoneMessage)
        <==> f.name == "phone" && !AllSpace(f.value) && !Phone.IsValidPhone(Trim(f.value))
  {
    MessagesDistinct(f.name);
  }

  /** A field that is neither `email` nor `phone` accepts any value with a
      non-whitespace character in it. */
  lemma OtherFieldsAcceptAnyText(f: Field, k: int)
    requires f.name != "email" && f.name != "phone"
    requires 0 <= k < |f.value| && !IsSpace(f.value[k])
    ensures ValidateField(f).valid
  {
  }

  /** The error shown before validation has no influence on its outcome. */
  lemma PriorErrorIrrelevant(f: Field, e: Option<string>)
    ensures ValidateField(f.(error := e)) == ValidateField(f)
  {
  }

  /** Leaving a field a second time changes nothing: the first blur already
      shows the error the value deserves. */
  lemma BlurIdempotent(f: Field)
    ensures OnBlur(OnBlur(f)) == OnBlur(f)
  {
    PriorErrorIrrelevant(OnBlur(f), f.error);
  }

  /** Whitespace around a value changes neither the verdict nor the message. */
  lemma PaddingIrrelevant(f: Field, lead: string, trail: string)
    requires AllSpace(lead) && AllSpace(trail)
    ensures ValidateField(f.(value := lead + f.value + trail)).field.error
         == ValidateField(f).field.error
  {
    TrimIgnoresPadding(lead, f.value, trail);
    assert Diagnose(f.name, lead + f.value + trail) == Diagnose(f.name, f.value);
  }
}

=== FILE: wrappers.dfy ===
/** The optional value used across the model: a JavaScript property that may be
    absent, or an error message that may not be shown. */
module Wrappers {

  datatype Option<+T> = None | Some(value: T)
}
